=== FILE: README.md ===
# Reservation validation engine of zzimkkong, modelled in Dafny

zzimkkong lets an organisation publish rooms ("spaces") on a map. Each space has
recurring availability rules ("settings"), and guests or members reserve time slots
in it. This project models the part of `ReservationService` that decides whether a
proposed reservation is legal. It covers:

- the temporal checks made while the reservation value is built;
- the setting checks, in the service's fixed order;
- the conflict check against the day's other reservations, under a create or update
  exclusion strategy;
- the deletion guard;
- the create, update and delete operations over the stored reservations of one space;
- the request validator that forbids two settings of a space from sharing a priority order.

Everything is pure functions over immutable datatypes. Times are local: a date is a
day number, with day 0 a Monday, and a time is a minute of the day. "Now" is an
explicit parameter. Errors are values of `Errors.ReservationError`, one per business-rule
exception of the modelled checks. The repository is modelled as the sequence of reservations
stored for the space.

Files, one module each:

- `wrappers.dfy` holds the `Option`, `Result` and `Outcome` wrappers.
- `errors.dfy` holds the error values.
- `time.dfy` holds dates, minutes and weekdays.
- `time_slot.dfy` holds time-of-day intervals.
- `setting.dfy` holds settings and relevance.
- `reservation.dfy` holds reservations, their construction, conflict and lifecycle.
- `exclude_strategy.dfy` holds the create/update exclusion.
- `reservation_service.dfy` holds the pipeline.
- `booking_invariants.dfy` shows that no double booking survives save, update or delete.
- `duplicate_setting_order_validator.dfy` holds the priority check.
- `scenarios.dfy` holds the service tests' expectations, restated.

The service calls helpers on `Settings`, `Setting`, `TimeSlot`, `Reservation` and the
exclusion strategies. The model does not follow those classes' code. Each helper is
modelled as a small predicate, from its name and the service tests. These definitions are consistent with the service tests, but the tests
do not settle every detail (see "## Left out"):

- A setting's window starts before it ends.
- A setting is relevant when the weekday is enabled and its window overlaps the slot
  (half-open, so touching an edge does not count).
- Containment is inclusive.
- A slot is aligned when its start and end are both multiples of the unit, counted
  from the window's start.
- The slot is too short when its duration is below the minimum, and too long when it
  is above the maximum.
- Two reservations conflict when their intervals overlap (half-open).
- A reservation is in use when start <= now < end, and expired when end <= now.

## Model

| member | source | states |
|---|---|---|
| `TimeSlots.OverlapsIsSymmetric` | backend/src/main/java/com/woowacourse/zzimkkong/service/ReservationService.java:291 | whether a setting's window overlaps a slot does not depend on which of the two is asked |
| `TimeSlots.TouchingSlotsDoNotOverlap` | backend/src/test/java/com/woowacourse/zzimkkong/service/GuestReservationServiceTest.java:451-489 | a slot that only touches a window's edge (08-10 or 22-23 against 10-22) does not overlap it |
| `TimeSlots.ContainsIsReflexive` | backend/src/main/java/com/woowacourse/zzimkkong/service/ReservationService.java:303-305 | a slot equal to the setting's window passes the containment check |
| `TimeSlots.ContainedSlotOverlaps` | backend/src/main/java/com/woowacourse/zzimkkong/service/ReservationService.java:291-305 | a non-empty slot contained in a window also overlaps it, so containment is the stricter test applied after relevance |
| `Settings.RelevantSettings` | backend/src/main/java/com/woowacourse/zzimkkong/service/ReservationService.java:291-301 | the result holds exactly the settings enabled on the weekday whose window overlaps the slot; it is empty iff no index is relevant; it has two or more entries iff two distinct indices are relevant, whatever their priorities |
| `Settings.SingleRelevantSetting` | backend/src/main/java/com/woowacourse/zzimkkong/service/ReservationService.java:299-308 | exactly one relevant setting iff some index is the only relevant one, and the relevant list is then exactly that setting, the one taken at index 0 |
| `Reservations.CreateReservation` | backend/src/test/java/com/woowacourse/zzimkkong/service/GuestReservationServiceTest.java:210-308 | start not before end gives ImpossibleStartEndTime; otherwise a start before now gives PastReservationTime; otherwise different dates give NonMatchingStartEndDate; the value is built iff start is before end, start is not before now and both fall on one date; a built reservation is well formed, has a valid time slot and is not expired |
| `Reservations.HasConflictWithIsSymmetric` | backend/src/main/java/com/woowacourse/zzimkkong/service/ReservationService.java:331 | asking the existing reservation about the candidate gives the same answer as the reverse |
| `Reservations.BackToBackReservationsDoNotConflict` | backend/src/test/java/com/woowacourse/zzimkkong/service/GuestReservationServiceTest.java:416-449 | a reservation ending exactly when another starts does not conflict with it |
| `Reservations.EnclosingReservationConflicts` | backend/src/test/java/com/woowacourse/zzimkkong/service/GuestReservationServiceTest.java:310-334 | an existing reservation that encloses the request always conflicts with it |
| `Reservations.DifferentDatesNeverConflict` | backend/src/main/java/com/woowacourse/zzimkkong/service/ReservationService.java:279-281 | well-formed reservations on different dates never conflict, so looking only at the candidate's date is sound |
| `Reservations.LifecycleIsExclusive` | backend/src/main/java/com/woowacourse/zzimkkong/service/ReservationService.java:262-271 | for a well-formed reservation, in use and expired never hold together, and neither holds exactly when it has not started |
| `Reservations.Without` | backend/src/main/java/com/woowacourse/zzimkkong/service/ReservationService.java:247 | removing a reservation keeps exactly the entries with another id, and keeps a conflict-free, distinct-id list that way |
| `ExcludeStrategies.Apply` | backend/src/main/java/com/woowacourse/zzimkkong/service/ReservationService.java:282 | the create strategy keeps the day's list unchanged; the update strategy keeps exactly the entries other than the reservation being updated |
| `Settings.Setting.IsRelevantTo` | backend/src/main/java/com/woowacourse/zzimkkong/service/ReservationService.java:291 | a setting is relevant to a slot on a weekday iff the weekday is enabled and its window overlaps the slot half-open, so a slot touching the window edge is not relevant |
| `Settings.Setting.CannotAcceptDueToAvailableTime` | backend/src/main/java/com/woowacourse/zzimkkong/service/ReservationService.java:303 | the slot is refused iff it is not inside the setting window, with the window edges allowed |
| `Settings.Setting.CannotAcceptDueToTimeUnit` | backend/src/main/java/com/woowacourse/zzimkkong/service/ReservationService.java:310 | the slot is refused iff its start or its end, measured from the window start, is not a multiple of the reservation time unit |
| `Settings.Setting.CannotAcceptDueToMinimumTimeUnit` | backend/src/main/java/com/woowacourse/zzimkkong/service/ReservationService.java:314 | the slot is refused iff it is strictly shorter than the minimum duration |
| `Settings.Setting.CannotAcceptDueToMaximumTimeUnit` | backend/src/main/java/com/woowacourse/zzimkkong/service/ReservationService.java:318 | the slot is refused iff it is strictly longer than the maximum duration |
| `ReservationService.Space.IsUnableToReserve` | backend/src/main/java/com/woowacourse/zzimkkong/service/ReservationService.java:322 | a space refuses reservations iff its reservation-enable flag is off |
| `Reservations.Reservation.HasConflictWith` | backend/src/main/java/com/woowacourse/zzimkkong/service/ReservationService.java:331 | two reservations conflict iff each one starts strictly before the other ends |
| `Reservations.Reservation.IsInUse` | backend/src/main/java/com/woowacourse/zzimkkong/service/ReservationService.java:264 | a reservation is in use iff it has started, start <= now, and has not ended, now < end |
| `Reservations.Reservation.IsExpired` | backend/src/main/java/com/woowacourse/zzimkkong/service/ReservationService.java:268 | a reservation is expired iff it has ended, end <= now |
| `ReservationService.ValidateSpaceSetting` | backend/src/main/java/com/woowacourse/zzimkkong/service/ReservationService.java:287-325 | each error holds exactly when every earlier check passed and its own check failed, in the order no setting, multiple settings, not contained, time unit, minimum, maximum, space disabled; it passes iff one setting governs, accepts the slot, and the space is enabled |
| `ReservationService.ValidateTimeConflicts` | backend/src/main/java/com/woowacourse/zzimkkong/service/ReservationService.java:327-335 | the scan fails, always with ReservationAlreadyExists, iff some reservation of the list conflicts with the candidate; the pure pipeline uses this specification, `ConflictsWithAny`, in place of the scan |
| `ReservationService.ValidateAvailability` | backend/src/main/java/com/woowacourse/zzimkkong/service/ReservationService.java:273-285 | a setting failure is returned unchanged, before any conflict is examined; after the setting checks pass, it passes iff every conflicting reservation of the day is one the strategy excludes, and otherwise fails with ReservationAlreadyExists |
| `ReservationService.OnDate` | backend/src/main/java/com/woowacourse/zzimkkong/service/ReservationService.java:337-343 | the per-date lookup returns exactly the stored reservations of that date |
| `ReservationService.OnDateFindsEveryConflict` | backend/src/main/java/com/woowacourse/zzimkkong/service/ReservationService.java:279-284 | for well-formed reservations, the non-excluded conflicts among the date's reservations are exactly the non-excluded conflicts among all stored reservations |
| `ReservationService.ValidateDeletability` | backend/src/main/java/com/woowacourse/zzimkkong/service/ReservationService.java:262-271 | in use gives DeleteReservationInUse; expired but not in use gives DeleteExpiredReservation; it passes iff the reservation is neither in use nor expired, and a well-formed reservation passes iff it has not started |
| `ReservationService.SaveReservation` | backend/src/main/java/com/woowacourse/zzimkkong/service/ReservationService.java:55-72 | temporal errors win over setting errors, which win over conflicts; on success the store gains exactly the new reservation; over well-formed stores, success iff the value builds, the settings accept it, and no stored reservation conflicts with it |
| `ReservationService.UpdateReservation` | backend/src/main/java/com/woowacourse/zzimkkong/service/ReservationService.java:197-220 | same error order as creation; on success only the entry with the updated reservation's id changes, to the new interval; over well-formed stores, success iff the value builds, the settings accept it, and no reservation with another id conflicts with it |
| `ReservationService.DeleteReservation` | backend/src/main/java/com/woowacourse/zzimkkong/service/ReservationService.java:222-252 | a manager always deletes; otherwise in use is refused before expired; a well-formed reservation is deleted iff the actor is a manager or it has not started; deletion removes exactly the entries with its id |
| `BookingInvariants.SaveKeepsStoreConsistent` | backend/src/main/java/com/woowacourse/zzimkkong/service/ReservationService.java:63-67 | saving with a fresh id into a store that is well formed, distinct by id and conflict free keeps all three properties |
| `BookingInvariants.UpdateKeepsStoreConsistent` | backend/src/main/java/com/woowacourse/zzimkkong/service/ReservationService.java:211-215 | updating a stored reservation keeps a consistent store consistent |
| `BookingInvariants.DeleteKeepsStoreConsistent` | backend/src/main/java/com/woowacourse/zzimkkong/service/ReservationService.java:243-247 | deleting keeps a consistent store consistent and never grows it |
| `DuplicateSettingOrderValidator.IsValid` | backend/src/main/java/com/woowacourse/zzimkkong/dto/DuplicateSettingOrderValidator.java:14-24 | a null or empty list is valid; any other list is valid iff no two positions carry the same priority order |
| `DuplicateSettingOrderValidator.PrioritiesOfAppend` | backend/src/main/java/com/woowacourse/zzimkkong/dto/DuplicateSettingOrderValidator.java:19-21 | the priority set of a list with one more setting is the old set plus that setting's priority |
| `DuplicateSettingOrderValidator.PrioritiesNoLargerThanList` | backend/src/main/java/com/woowacourse/zzimkkong/dto/DuplicateSettingOrderValidator.java:19-23 | the set of priorities is never larger than the list |
| `DuplicateSettingOrderValidator.DistinctIffNoPriorityLost` | backend/src/main/java/com/woowacourse/zzimkkong/dto/DuplicateSettingOrderValidator.java:19-23 | the priority set is as large as the list iff the priorities are pairwise distinct |
| `DuplicateSettingOrderValidator.SingletonIsValid` | backend/src/main/java/com/woowacourse/zzimkkong/dto/DuplicateSettingOrderValidator.java:19-23 | any one-element list is valid |
| `DuplicateSettingOrderValidator.OnlyPriorityOrderMatters` | backend/src/main/java/com/woowacourse/zzimkkong/dto/DuplicateSettingOrderValidator.java:20 | two lists of equal length whose priorities agree position by position get the same verdict, whatever their other fields |
| `DuplicateSettingOrderValidator.ReorderingPreservesValidity` | backend/src/main/java/com/woowacourse/zzimkkong/dto/DuplicateSettingOrderValidator.java:19-23 | a reordered list gets the same verdict |
| `DuplicateSettingOrderValidator.AppendingTakenPriorityInvalidates` | backend/src/main/java/com/woowacourse/zzimkkong/dto/DuplicateSettingOrderValidator.java:19-23 | appending a setting whose priority is already present makes the list invalid |
| `DuplicateSettingOrderValidator.AppendingFreshPriorityKeepsValidity` | backend/src/main/java/com/woowacourse/zzimkkong/dto/DuplicateSettingOrderValidator.java:19-23 | appending a setting with a new priority keeps a valid list valid |
| `Scenarios.TemporalErrorsComeFirst` | backend/src/test/java/com/woowacourse/zzimkkong/service/GuestReservationServiceTest.java:996-1057 | inverted or empty intervals, intervals across two dates and intervals in the past are refused with their temporal error on both paths |
| `Scenarios.PastWindowAcrossMidnightIsPast` | backend/src/test/java/com/woowacourse/zzimkkong/service/GuestReservationServiceTest.java:210-233 | a request from three hours before now to three hours after it is refused as PastReservationTime even when it spans midnight, as that test expects at any time of day |
| `Scenarios.EdgeTouchingSlotHasNoSetting` | backend/src/test/java/com/woowacourse/zzimkkong/service/GuestReservationServiceTest.java:451-489 | 06-08, 08-10 and 22-23 against a 10-22 setting give NoSettingAvailable on both create and update |
| `Scenarios.DisabledWeekdayHasNoSetting` | backend/src/test/java/com/woowacourse/zzimkkong/service/GuestReservationServiceTest.java:376-414 | a setting enabled only on the next weekday gives NoSettingAvailable on both create and update, the update case being the test at lines 1204-1247 |
| `Scenarios.SlotAcrossTwoSettingsIsRefused` | backend/src/test/java/com/woowacourse/zzimkkong/service/GuestReservationServiceTest.java:491-539 | with settings 08-10 and 10-22 of different priorities, 07-11 and 09-11 give MultipleSettings on both paths |
| `Scenarios.SlotNotWithinSettingIsRefused` | backend/src/test/java/com/woowacourse/zzimkkong/service/GuestReservationServiceTest.java:541-579 | 09-11 and 21-23 against 10-22 give InvalidStartEndTime on both paths |
| `Scenarios.MisalignedSlotIsRefused` | backend/src/test/java/com/woowacourse/zzimkkong/service/GuestReservationServiceTest.java:581-619 | offsets +5/+60, +10/+55, +5/+65 and +20/+85 from 10:00 give InvalidTimeUnit on both paths |
| `Scenarios.TooShortSlotIsRefused` | backend/src/test/java/com/woowacourse/zzimkkong/service/GuestReservationServiceTest.java:621-654 | 10:00-10:50 gives InvalidMinimumDurationTime |
| `Scenarios.TooLongSlotIsRefused` | backend/src/test/java/com/woowacourse/zzimkkong/service/GuestReservationServiceTest.java:656-689 | 10:00-12:10 gives InvalidMaximumDurationTime |
| `Scenarios.DisabledSpaceIsRefusedLast` | backend/src/test/java/com/woowacourse/zzimkkong/service/GuestReservationServiceTest.java:336-374 | an acceptable slot on a disabled space gives InvalidReservationEnable, while a misaligned one still gives InvalidTimeUnit |
| `Scenarios.AcceptedReservationIsStored` | backend/src/test/java/com/woowacourse/zzimkkong/service/GuestReservationServiceTest.java:150-170 | the tests' default request, 11:00-12:00, saved on an empty space is stored as its only entry |
| `Scenarios.ConflictsOnCreate` | backend/src/test/java/com/woowacourse/zzimkkong/service/GuestReservationServiceTest.java:310-334 | existing 10-12 or 11-13 refuses 11-12; existing 10-11 and 12-13 accept it |
| `Scenarios.UpdateOverlappingLaterPartIsRefused` | backend/src/test/java/com/woowacourse/zzimkkong/service/GuestReservationServiceTest.java:1090-1126 | moving a reservation to 13:30-14:30, into the later half of another reservation of the day at 13:00-14:00, gives ReservationAlreadyExists |
| `Scenarios.UpdateOverlappingEarlierPartIsRefused` | backend/src/test/java/com/woowacourse/zzimkkong/service/GuestReservationServiceTest.java:1090-1126 | moving it to 12:30-13:30, into the earlier half of that reservation, gives ReservationAlreadyExists too |
| `Scenarios.UpdateToAdjacentSlotIsAccepted` | backend/src/test/java/com/woowacourse/zzimkkong/service/GuestReservationServiceTest.java:965-994 | moving 11:00-12:00 to 10:00-11:00 is accepted and the entry is overwritten with the new interval |
| `Scenarios.UpdateOverlappingItselfIsAccepted` | backend/src/main/java/com/woowacourse/zzimkkong/service/ReservationService.java:211-215 | because the update strategy excludes the reservation being updated, moving 11:00-12:00 to 11:30-12:30, which overlaps only its own prior interval, is accepted and overwrites the entry |
| `Scenarios.DeletionGuard` | backend/src/test/java/com/woowacourse/zzimkkong/service/GuestReservationServiceTest.java:1249-1358 | a non-manager deletes an upcoming reservation, the test at lines 1249-1274, and is refused an expired one, the test at lines 1330-1358; the model also states that an in-use one is refused to a non-manager and deleted by a manager, cases no test covers |

## Left out

- Settings.Setting.CannotAcceptDueToTimeUnit: the `Setting` class is not part of this model. Two things here are assumptions, not read from code: the alignment is measured from the window start, and the minimum and maximum bounds are inclusive, so only strictly shorter or strictly longer slots are refused. Every window in the service tests starts on the hour, and the tests only try 50 and 130 minutes, so other readings would pass them too.
- Reservations.CreateReservation: the code that builds the reservation is not part of this model, so the order of the three temporal checks is an assumption. The past check comes before the one-date check because the test at GuestReservationServiceTest.java:210-233 expects PastReservationTime for a window from now - 3h to now + 3h, which spans midnight when run late in the day. No test fixes whether the inverted-interval check comes first.
- Instants have minute precision. A `now` with seconds would have to be rounded up for the past check in `Reservations.CreateReservation`, and rounded down for `Reservations.Reservation.IsInUse` and `IsExpired`.
- Persistence is not modelled: JPA, transactions, pagination and the `findAll*` queries. The per-date lookup at ReservationService.java:342 is modelled by its intended contract (`OnDate`: all of the space's reservations on that date). The query name used there is not declared in ReservationRepository.java.
- The read-only finders (`findAllReservations`, `findReservations`, `findReservation`, the upcoming and previous listings) are not modelled. They only query and shape responses.
- Authorization is not modelled: `validateManagerOfMap`, `validateOwnerOfReservation` and password checks. Map, space and reservation existence lookups are not modelled either. They belong to strategy classes that are not part of this model. Callers pass the space and the reservation already resolved, plus an `isManager` flag.
- Time zones are not modelled: no UTC↔KST conversion, and all instants are local. The wall clock is the `now` parameter.
- Side effects with no decision logic are not modelled: `activateSharingMapId`, the sharing-id generator and `SlackResponse`.
- Diagnostic payloads are not modelled: `getUnavailableTimeSlots`, and the discarded `flatten()` result at ReservationService.java:294. The errors carry no payload.
- `Reservations.CreateReservation`: the new reservation's id is a parameter. The repository assigns it, and the invariant lemmas assume it is fresh.
- `ReservationService.UpdateReservation`: the new value keeps the updated reservation's id, and the store is one space's list. Moving a reservation to another space is not modelled.
- `ExcludeStrategies.Apply`: the update strategy removes entries by id equality. The source removes the entity from the list, which is the same entry when ids are unique.
- `Settings.RelevantSettings`: the collection-level containment check `cannotAcceptDueToAvailableTime` is modelled on the single relevant setting. This is the only case in which it runs.
- `DuplicateSettingOrderValidator.IsValid`: `priorityOrder` is an `int`. A null `Integer` priority, which the Java set would hold as one more value, is not modelled.
- Weekday-label parsing and setting defaults are not modelled; neither is used by the modelled operations.
- The frontend and the test harnesses for HTTP, repository and space CRUD are not modelled.

=== FILE: booking_invariants.dfy ===
/**
 * The guarantee the pipeline gives its storage: starting from a consistent set
 * of reservations for a space, a successful create, update or delete leaves
 * it consistent, so two overlapping reservations are never both approved.
 */
module BookingInvariants {
  import opened Time
  import opened Wrappers
  import opened Reservations
  import opened ReservationService

  /** Every entry well formed, ids pairwise distinct, no two entries in conflict. */
  predicate ConsistentStore(store: seq<Reservation>)
  {
    AllWellFormed(store) && PairwiseCompatible(store)
  }

  lemma SaveKeepsStoreConsistent(
    space: Space,
    store: seq<Reservation>,
    newId: nat,
    startTime: DateTime,
    endTime: DateTime,
    now: DateTime)
    requires ConsistentStore(store)
    requires forall k | 0 <= k < |store| :: store[k].id != newId
    ensures var r := SaveReservation(space, store, newId, startTime, endTime, now);
      r.Ok? ==> ConsistentStore(r.value)
  {
  }

  lemma UpdateKeepsStoreConsistent(
    space: Space,
    store: seq<Reservation>,
    t: nat,
    startTime: DateTime,
    endTime: DateTime,
    now: DateTime)
    requires ConsistentStore(store)
    requires t < |store|
    ensures var r := UpdateReservation(space, store, store[t], startTime, endTime, now);
      r.Ok? ==> ConsistentStore(r.value)
  {
  }

  lemma DeleteKeepsStoreConsistent(
    store: seq<Reservation>,
    reservation: Reservation,
    now: DateTime,
    isManager: bool)
    requires ConsistentStore(store)
    ensures var r := DeleteReservation(store, reservation, now, isManager);
      r.Ok? ==> ConsistentStore(r.value) && |r.value| <= |store|
  {
  }
}

=== FILE: duplicate_setting_order_validator.dfy ===
/**
 * The request-level constraint on a space's setting list: no two settings
 * may share a priority order. The list is valid exactly when collecting the
 * priorities into a set loses nothing, that is when the set is as large as
 * the list.
 */
module DuplicateSettingOrderValidator {
  import opened Time
  import opened Wrappers

  /** A setting as submitted, before it becomes a domain setting. */
  datatype SettingRequest = SettingRequest(
    settingStartTime: MinuteOfDay,
    settingEndTime: MinuteOfDay,
    reservationTimeUnit: int,
    reservationMinimumTimeUnit: int,
    reservationMaximumTimeUnit: int,
    enabledDayOfWeek: set<DayOfWeek>,
    priorityOrder: int)

  /** The set of priority orders occurring in the list. */
  function Priorities(value: seq<SettingRequest>): set<int>
  {
    set i | 0 <= i < |value| :: value[i].priorityOrder
  }

  /** No two positions of the list carry the same priority order. */
  predicate DistinctPriorities(value: seq<SettingRequest>)
  {
    forall i, j | 0 <= i < j < |value| :: value[i].priorityOrder != value[j].priorityOrder
  }

  /** A null or empty list is valid; otherwise the priority set must be as large as the list. */
  function IsValid(value: Option<seq<SettingRequest>>): (r: bool)
    ensures value.None? ==> r
    ensures value == Some([]) ==> r
    ensures value.Some? ==> (r <==> DistinctPriorities(value.value))
  {
    match value
    case None => true
    case Some(settings) =>
      if |settings| == 0 then true
      else
        DistinctIffNoPriorityLost(settings);
        |settings| == |Priorities(settings)|
  }

  lemma PrioritiesOfAppend(value: seq<SettingRequest>, setting: SettingRequest)
    ensures Priorities(value + [setting]) == Priorities(value) + {setting.priorityOrder}
  {
    var extended := value + [setting];
    forall p | p in Priorities(extended)
      ensures p in Priorities(value) + {setting.priorityOrder}
    {
      var i :| 0 <= i < |extended| && extended[i].priorityOrder == p;
      if i < |value| {
        assert value[i] == extended[i];
      }
    }
    forall p | p in Priorities(value)
      ensures p in Priorities(extended)
    {
      var i :| 0 <= i < |value| && value[i].priorityOrder == p;
      assert extended[i] == value[i];
    }
    assert extended[|value|] == setting;
  }

  /** Collecting into a set never gains elements. */
  lemma {:induction false} PrioritiesNoLargerThanList(value: seq<SettingRequest>)
    ensures |Priorities(value)| <= |value|
  {
    if |value| > 0 {
      var init := value[..|value| - 1];
      assert value == init + [value[|value| - 1]];
      PrioritiesOfAppend(init, value[|value| - 1]);
      PrioritiesNoLargerThanList(init);
    } else {
      assert Priorities(value) == {};
    }
  }

  /** The set is as large as the list exactly when the priorities are pairwise distinct. */
  lemma {:induction false} DistinctIffNoPriorityLost(value: seq<SettingRequest>)
    ensures |Priorities(value)| == |value| <==> DistinctPriorities(value)
  {
    if |value| == 0 {
      assert Priorities(value) == {};
    } else {
      var last := value[|value| - 1];
      var init := value[..|value| - 1];
      assert value == init + [last];
      PrioritiesOfAppend(init, last);
      DistinctIffNoPriorityLost(init);
      PrioritiesNoLargerThanList(init);
      if last.priorityOrder in Priorities(init) {
        var i :| 0 <= i < |init| && init[i].priorityOrder == last.priorityOrder;
        assert value[i].priorityOrder == value[|value| - 1].priorityOrder;
        assert !DistinctPriorities(value);
      } else {
        assert |Priorities(value)| == |Priorities(init)| + 1;
        if DistinctPriorities(value) {
          assert DistinctPriorities(init) by {
            forall i, j | 0 <= i < j < |init|
              ensures init[i].priorityOrder != init[j].priorityOrder
            {
              assert init[i] == value[i] && init[j] == value[j];
            }
          }
        } else {
          var i, j :| 0 <= i < j < |value| && value[i].priorityOrder == value[j].priorityOrder;
          assert j < |value| - 1 by {
            assert init[i] == value[i];
          }
          assert init[i] == value[i] && init[j] == value[j];
          assert !DistinctPriorities(init);
        }
      }
    }
  }

  lemma SingletonIsValid(setting: SettingRequest)
    ensures IsValid(Some([setting]))
  {
  }

  /** Only the priority orders are inspected: the other fields never matter. */
  lemma OnlyPriorityOrderMatters(a: seq<SettingRequest>, b: seq<SettingRequest>)
    requires |a| == |b|
    requires forall k | 0 <= k < |a| :: a[k].priorityOrder == b[k].priorityOrder
    ensures IsValid(Some(a)) == IsValid(Some(b))
  {
  }

  /** Reordering the list does not change the verdict. */
  lemma ReorderingPreservesValidity(a: seq<SettingRequest>, b: seq<SettingRequest>)
    requires multiset(a) == multiset(b)
    ensures IsValid(Some(a)) == IsValid(Some(b))
  {
    assert |a| == |multiset(a)| == |multiset(b)| == |b|;
    forall p | p in Priorities(a)
      ensures p in Priorities(b)
    {
      var i :| 0 <= i < |a| && a[i].priorityOrder == p;
      assert a[i] in multiset(b);
      var j :| 0 <= j < |b| && b[j] == a[i];
    }
    forall p | p in Priorities(b)
      ensures p in Priorities(a)
    {
      var j :| 0 <= j < |b| && b[j].priorityOrder == p;
      assert b[j] in multiset(a);
      var i :| 0 <= i < |a| && a[i] == b[j];
    }
    assert Priorities(a) == Priorities(b);
  }

  /** Appending a setting whose priority is already taken makes any list invalid. */
  lemma AppendingTakenPriorityInvalidates(value: seq<SettingRequest>, setting: SettingRequest)
    requires setting.priorityOrder in Priorities(value)
    ensures !IsValid(Some(value + [setting]))
  {
    var extended := value + [setting];
    var i :| 0 <= i < |value| && value[i].priorityOrder == setting.priorityOrder;
    assert extended[i].priorityOrder == extended[|value|].priorityOrder;
  }

  /** Appending a setting with a fresh priority keeps a valid list valid. */
  lemma AppendingFreshPriorityKeepsValidity(value: seq<SettingRequest>, setting: SettingRequest)
    requires IsValid(Some(value))
    requires setting.priorityOrder !in Priorities(value)
    ensures IsValid(Some(value + [setting]))
  {
    PrioritiesOfAppend(value, setting);
    DistinctIffNoPriorityLost(value);
    DistinctIffNoPriorityLost(value + [setting]);
  }
}

=== FILE: errors.dfy ===
/** The business-rule failures of the modelled reservation checks, one per exception class they throw. */
module Errors {

  datatype ReservationError =
    // raised while the reservation value is built, before any setting is consulted
    | ImpossibleStartEndTime
    | NonMatchingStartEndDate
    | PastReservationTime
    // raised by the setting checks, in this order
    | NoSettingAvailable
    | MultipleSettings
    | InvalidStartEndTime
    | InvalidTimeUnit
    | InvalidMinimumDurationTime
    | InvalidMaximumDurationTime
    | InvalidReservationEnable
    // raised by the conflict check
    | ReservationAlreadyExists
    // raised by the deletion guard
    | DeleteReservationInUse
    | DeleteExpiredReservation
}

=== FILE: exclude_strategy.dfy ===
/**
 * Which of the day's reservations the conflict check ignores: creating a
 * reservation ignores none, updating one ignores the reservation being updated.
 */
module ExcludeStrategies {
  import opened Reservations

  datatype ExcludeReservationStrategy =
    | ExcludeReservationCreateStrategy
    | ExcludeReservationUpdateStrategy(reservation: Reservation)
  {
    /** The strategy removes `other` from the comparison set. */
    predicate Excludes(other: Reservation)
    {
      ExcludeReservationUpdateStrategy? && other.id == reservation.id
    }
  }

  /** The comparison set: the day's reservations minus the ones the strategy excludes. */
  function Apply(strategy: ExcludeReservationStrategy, reservationsOnDate: seq<Reservation>): (r: seq<Reservation>)
    ensures strategy.ExcludeReservationCreateStrategy? ==> r == reservationsOnDate
    ensures forall x :: x in r <==> x in reservationsOnDate && !strategy.Excludes(x)
  {
    match strategy
    case ExcludeReservationCreateStrategy => reservationsOnDate
    case ExcludeReservationUpdateStrategy(target) => Without(reservationsOnDate, target.id)
  }
}

=== FILE: reservation.dfy ===
/**
 * A booked interval on one space, the temporal checks made while it is built,
 * its lifecycle relative to "now", and the conflict relation between two
 * reservations.
 */
module Reservations {
  import opened Time
  import opened TimeSlots
  import opened Wrappers
  import opened Errors

  datatype Reservation = Reservation(id: nat, startTime: DateTime, endTime: DateTime)
  {
    /** The reservation's date: the date it starts on. */
    function Date(): int
    {
      startTime.date
    }

    function Weekday(): DayOfWeek
    {
      DayOfWeekOf(Date())
    }

    /** The time-of-day projection of the interval, checked against settings. */
    function Slot(): TimeSlot
    {
      TimeSlot(startTime.time, endTime.time)
    }

    /** What construction guarantees: a non-empty interval within a single date. */
    predicate IsWellFormed()
    {
      startTime.IsBefore(endTime) && startTime.date == endTime.date
    }

    /** Half-open overlap of the two intervals: touching end points do not conflict. */
    predicate HasConflictWith(other: Reservation)
    {
      startTime.IsBefore(other.endTime) && other.startTime.IsBefore(endTime)
    }

    /** Started and not yet ended. */
    predicate IsInUse(now: DateTime)
    {
      !now.IsBefore(startTime) && now.IsBefore(endTime)
    }

    /** Already ended. */
    predicate IsExpired(now: DateTime)
    {
      !now.IsBefore(endTime)
    }
  }

  /**
   * Builds the reservation value, rejecting an empty or inverted interval, an
   * interval in the past, and an interval across two dates, in that order.
   */
  function CreateReservation(id: nat, startTime: DateTime, endTime: DateTime, now: DateTime)
    : (r: Result<Reservation, ReservationError>)
    ensures r == Err(ImpossibleStartEndTime) <==> !startTime.IsBefore(endTime)
    ensures r == Err(PastReservationTime) <==>
      startTime.IsBefore(endTime) && startTime.IsBefore(now)
    ensures r == Err(NonMatchingStartEndDate) <==>
      startTime.IsBefore(endTime) && !startTime.IsBefore(now) && startTime.date != endTime.date
    ensures r.Ok? <==>
      startTime.IsBefore(endTime) && startTime.date == endTime.date && !startTime.IsBefore(now)
    ensures r.Ok? ==>
      && r.value == Reservation(id, startTime, endTime)
      && r.value.IsWellFormed()
      && r.value.Slot().IsValid()
      && !startTime.IsBefore(now)
      && !r.value.IsExpired(now)
  {
    if !startTime.IsBefore(endTime) then Err(ImpossibleStartEndTime)
    else if startTime.IsBefore(now) || endTime.IsBefore(now) then Err(PastReservationTime)
    else if startTime.date != endTime.date then Err(NonMatchingStartEndDate)
    else Ok(Reservation(id, startTime, endTime))
  }

  lemma HasConflictWithIsSymmetric(a: Reservation, b: Reservation)
    ensures a.HasConflictWith(b) <==> b.HasConflictWith(a)
  {
  }

  /** A reservation ending exactly when another starts does not conflict with it. */
  lemma BackToBackReservationsDoNotConflict(a: Reservation, b: Reservation)
    requires a.endTime == b.startTime
    ensures !a.HasConflictWith(b) && !b.HasConflictWith(a)
  {
  }

  /** A well-formed reservation conflicts with every reservation that encloses it. */
  lemma EnclosingReservationConflicts(inner: Reservation, outer: Reservation)
    requires inner.IsWellFormed()
    requires !inner.startTime.IsBefore(outer.startTime) && !outer.endTime.IsBefore(inner.endTime)
    ensures outer.HasConflictWith(inner)
  {
  }

  /**
   * Well-formed reservations on different dates never conflict, so comparing a
   * candidate only with the reservations of its own date loses nothing.
   */
  lemma DifferentDatesNeverConflict(a: Reservation, b: Reservation)
    requires a.IsWellFormed() && b.IsWellFormed()
    requires a.Date() != b.Date()
    ensures !a.HasConflictWith(b)
  {
    InstantWithinDate(a.startTime);
    InstantWithinDate(a.endTime);
    InstantWithinDate(b.startTime);
    InstantWithinDate(b.endTime);
    if a.Date() < b.Date() {
      assert (a.Date() + 1) * MinutesPerDay <= b.Date() * MinutesPerDay;
    } else {
      assert (b.Date() + 1) * MinutesPerDay <= a.Date() * MinutesPerDay;
    }
  }

  /** For a well-formed reservation exactly one of upcoming, in use and expired holds. */
  lemma LifecycleIsExclusive(r: Reservation, now: DateTime)
    requires r.IsWellFormed()
    ensures now.IsBefore(r.startTime) <==> !r.IsInUse(now) && !r.IsExpired(now)
    ensures !(r.IsInUse(now) && r.IsExpired(now))
  {
  }

  /** The reservations of `reservations` whose id is not `id`, in their original order. */
  function Without(reservations: seq<Reservation>, id: nat): (r: seq<Reservation>)
    ensures |r| <= |reservations|
    ensures forall x :: x in r <==> x in reservations && x.id != id
    ensures PairwiseCompatible(reservations) ==> PairwiseCompatible(r)
  {
    if |reservations| == 0 then []
    else
      var rest := Without(reservations[1..], id);
      assert forall x :: x in reservations[1..] ==> x in reservations;
      if reservations[0].id == id then rest
      else
        assert forall k | 0 <= k < |rest| :: rest[k] in reservations[1..];
        [reservations[0]] + rest
  }

  /** Two stored reservations are compatible when their ids differ and they do not conflict. */
  predicate Compatible(a: Reservation, b: Reservation)
  {
    a.id != b.id && !a.HasConflictWith(b)
  }

  predicate PairwiseCompatible(reservations: seq<Reservation>)
  {
    forall i, j | 0 <= i < j < |reservations| :: Compatible(reservations[i], reservations[j])
  }

  predicate AllWellFormed(reservations: seq<Reservation>)
  {
    forall k | 0 <= k < |reservations| :: reservations[k].IsWellFormed()
  }
}

=== FILE: reservation_service.dfy ===
/**
 * The reservation service's validation pipeline: the setting checks in their
 * fixed order, the conflict check under an exclusion strategy, the deletion
 * guard, and the create, update and delete operations over the reservations
 * stored for one space.
 */
module ReservationService {
  import opened Time
  import opened TimeSlots
  import opened Wrappers
  import opened Errors
  import opened Settings
  import opened Reservations
  import opened ExcludeStrategies

  datatype Space = Space(id: nat, reservationEnable: bool, spaceSettings: seq<Setting>)
  {
    predicate IsUnableToReserve()
    {
      !reservationEnable
    }
  }

  /** No setting of the space is relevant to the reservation's slot and weekday. */
  predicate NoSettingRelevant(space: Space, reservation: Reservation)
  {
    forall i | 0 <= i < |space.spaceSettings| ::
      !space.spaceSettings[i].IsRelevantTo(reservation.Slot(), reservation.Weekday())
  }

  /** Two distinct settings of the space are relevant to the reservation. */
  predicate SeveralSettingsRelevant(space: Space, reservation: Reservation)
  {
    exists i, j | 0 <= i < j < |space.spaceSettings| ::
      && space.spaceSettings[i].IsRelevantTo(reservation.Slot(), reservation.Weekday())
      && space.spaceSettings[j].IsRelevantTo(reservation.Slot(), reservation.Weekday())
  }

  /** The setting at index `i` is the only one of the space relevant to the reservation. */
  predicate GovernedBy(space: Space, reservation: Reservation, i: int)
  {
    Governs(space.spaceSettings, i, reservation.Slot(), reservation.Weekday())
  }

  /**
   * The setting checks, first failure wins: no relevant setting, several
   * relevant settings, slot not inside the setting's window, misaligned time
   * unit, too short, too long, space disabled.
   */
  function ValidateSpaceSetting(space: Space, reservation: Reservation): (r: Outcome<ReservationError>)
    ensures r == Fail(NoSettingAvailable) <==> NoSettingRelevant(space, reservation)
    ensures r == Fail(MultipleSettings) <==> SeveralSettingsRelevant(space, reservation)
    ensures r == Fail(InvalidStartEndTime) <==>
      exists i :: GovernedBy(space, reservation, i)
        && space.spaceSettings[i].CannotAcceptDueToAvailableTime(reservation.Slot())
    ensures r == Fail(InvalidTimeUnit) <==>
      exists i :: GovernedBy(space, reservation, i)
        && !space.spaceSettings[i].CannotAcceptDueToAvailableTime(reservation.Slot())
        && space.spaceSettings[i].CannotAcceptDueToTimeUnit(reservation.Slot())
    ensures r == Fail(InvalidMinimumDurationTime) <==>
      exists i :: GovernedBy(space, reservation, i)
        && !space.spaceSettings[i].CannotAcceptDueToAvailableTime(reservation.Slot())
        && !space.spaceSettings[i].CannotAcceptDueToTimeUnit(reservation.Slot())
        && space.spaceSettings[i].CannotAcceptDueToMinimumTimeUnit(reservation.Slot())
    ensures r == Fail(InvalidMaximumDurationTime) <==>
      exists i :: GovernedBy(space, reservation, i)
        && !space.spaceSettings[i].CannotAcceptDueToAvailableTime(reservation.Slot())
        && !space.spaceSettings[i].CannotAcceptDueToTimeUnit(reservation.Slot())
        && !space.spaceSettings[i].CannotAcceptDueToMinimumTimeUnit(reservation.Slot())
        && space.spaceSettings[i].CannotAcceptDueToMaximumTimeUnit(reservation.Slot())
    ensures r == Fail(InvalidReservationEnable) <==>
      (exists i :: GovernedBy(space, reservation, i) && space.spaceSettings[i].Accepts(reservation.Slot()))
      && space.IsUnableToReserve()
    ensures r == Pass <==>
      (exists i :: GovernedBy(space, reservation, i) && space.spaceSettings[i].Accepts(reservation.Slot()))
      && !space.IsUnableToReserve()
    ensures r.Pass? || r.error in {NoSettingAvailable, MultipleSettings, InvalidStartEndTime, InvalidTimeUnit,
                                   InvalidMinimumDurationTime, InvalidMaximumDurationTime, InvalidReservationEnable}
  {
    var slot, day := reservation.Slot(), reservation.Weekday();
    var relevantSettings := RelevantSettings(space.spaceSettings, slot, day);
    SingleRelevantSetting(space.spaceSettings, slot, day);
    if |relevantSettings| == 0 then Fail(NoSettingAvailable)
    else if |relevantSettings| > 1 then Fail(MultipleSettings)
    else if relevantSettings[0].CannotAcceptDueToAvailableTime(slot) then Fail(InvalidStartEndTime)
    else
      var setting := relevantSettings[0];
      if setting.CannotAcceptDueToTimeUnit(slot) then Fail(InvalidTimeUnit)
      else if setting.CannotAcceptDueToMinimumTimeUnit(slot) then Fail(InvalidMinimumDurationTime)
      else if setting.CannotAcceptDueToMaximumTimeUnit(slot) then Fail(InvalidMaximumDurationTime)
      else if space.IsUnableToReserve() then Fail(InvalidReservationEnable)
      else Pass
  }

  /** Some reservation of `others` conflicts with `reservation`. */
  predicate ConflictsWithAny(reservation: Reservation, others: seq<Reservation>)
  {
    exists k | 0 <= k < |others| :: others[k].HasConflictWith(reservation)
  }

  /**
   * Scans the day's reservations and fails on the first one in conflict. The
   * pure pipeline below (`ValidateAvailability`) uses this method's
   * specification, `ConflictsWithAny`, in place of the scan.
   */
  method ValidateTimeConflicts(reservation: Reservation, reservationsOnDate: seq<Reservation>)
    returns (r: Outcome<ReservationError>)
    ensures r == Pass <==> !ConflictsWithAny(reservation, reservationsOnDate)
    ensures r.Fail? ==> r.error == ReservationAlreadyExists
  {
    var k := 0;
    while k < |reservationsOnDate|
      invariant 0 <= k <= |reservationsOnDate|
      invariant forall m | 0 <= m < k :: !reservationsOnDate[m].HasConflictWith(reservation)
    {
      if reservationsOnDate[k].HasConflictWith(reservation) {
        return Fail(ReservationAlreadyExists);
      }
      k := k + 1;
    }
    return Pass;
  }

  /**
   * The setting checks, then the conflict check against the day's reservations
   * that the strategy keeps.
   */
  function ValidateAvailability(
    space: Space,
    reservation: Reservation,
    reservationsOnDate: seq<Reservation>,
    strategy: ExcludeReservationStrategy): (r: Outcome<ReservationError>)
    ensures ValidateSpaceSetting(space, reservation).Fail? ==> r == ValidateSpaceSetting(space, reservation)
    ensures ValidateSpaceSetting(space, reservation).Pass? ==>
      (r == Pass <==>
        forall k | 0 <= k < |reservationsOnDate| ::
          reservationsOnDate[k].HasConflictWith(reservation) ==> strategy.Excludes(reservationsOnDate[k]))
    ensures ValidateSpaceSetting(space, reservation).Pass? && r.Fail? ==> r.error == ReservationAlreadyExists
  {
    var settingOutcome := ValidateSpaceSetting(space, reservation);
    if settingOutcome.Fail? then settingOutcome
    else
      var others := Apply(strategy, reservationsOnDate);
      assert forall k | 0 <= k < |others| :: others[k] in reservationsOnDate;
      if ConflictsWithAny(reservation, others) then Fail(ReservationAlreadyExists)
      else Pass
  }

  /** The stored reservations whose date is `date`: the repository's per-date lookup. */
  function OnDate(reservations: seq<Reservation>, date: int): (r: seq<Reservation>)
    ensures forall x :: x in r <==> x in reservations && x.Date() == date
  {
    if |reservations| == 0 then []
    else
      var rest := OnDate(reservations[1..], date);
      assert forall x :: x in reservations[1..] ==> x in reservations;
      if reservations[0].Date() == date then [reservations[0]] + rest else rest
  }

  /**
   * Looking only at the reservations of the candidate's date finds every
   * conflict among all stored reservations that the strategy does not exclude.
   */
  lemma OnDateFindsEveryConflict(
    reservations: seq<Reservation>,
    candidate: Reservation,
    strategy: ExcludeReservationStrategy)
    requires AllWellFormed(reservations)
    requires candidate.IsWellFormed()
    ensures var onDate := OnDate(reservations, candidate.Date());
      (forall k | 0 <= k < |onDate| :: onDate[k].HasConflictWith(candidate) ==> strategy.Excludes(onDate[k]))
      <==>
      (forall k | 0 <= k < |reservations| :: reservations[k].HasConflictWith(candidate) ==> strategy.Excludes(reservations[k]))
  {
    var onDate := OnDate(reservations, candidate.Date());
    forall k | 0 <= k < |reservations| && reservations[k].HasConflictWith(candidate)
      ensures reservations[k] in onDate
    {
      if reservations[k].Date() != candidate.Date() {
        DifferentDatesNeverConflict(reservations[k], candidate);
      }
    }
    assert forall k | 0 <= k < |onDate| :: onDate[k] in reservations;
  }

  /** A non-manager may delete only a reservation that has not started. */
  function ValidateDeletability(reservation: Reservation, now: DateTime): (r: Outcome<ReservationError>)
    ensures r == Fail(DeleteReservationInUse) <==> reservation.IsInUse(now)
    ensures r == Fail(DeleteExpiredReservation) <==> reservation.IsExpired(now) && !reservation.IsInUse(now)
    ensures r == Pass <==> !reservation.IsInUse(now) && !reservation.IsExpired(now)
    ensures reservation.IsWellFormed() ==> (r == Pass <==> now.IsBefore(reservation.startTime))
  {
    if reservation.IsInUse(now) then Fail(DeleteReservationInUse)
    else if reservation.IsExpired(now) then Fail(DeleteExpiredReservation)
    else Pass
  }

  /**
   * Creating a reservation: build it (temporal checks), validate its
   * availability against its date's reservations excluding none, then store it.
   * Nothing is stored when any check fails.
   */
  function SaveReservation(
    space: Space,
    store: seq<Reservation>,
    newId: nat,
    startTime: DateTime,
    endTime: DateTime,
    now: DateTime): (r: Result<seq<Reservation>, ReservationError>)
    ensures CreateReservation(newId, startTime, endTime, now).Err? ==>
      r == Err(CreateReservation(newId, startTime, endTime, now).error)
    ensures (CreateReservation(newId, startTime, endTime, now).Ok?
      && ValidateSpaceSetting(space, Reservation(newId, startTime, endTime)).Fail?) ==>
      r == Err(ValidateSpaceSetting(space, Reservation(newId, startTime, endTime)).error)
    ensures r.Ok? ==> r.value == store + [Reservation(newId, startTime, endTime)]
    ensures AllWellFormed(store) ==>
      (r.Ok? <==>
        && CreateReservation(newId, startTime, endTime, now).Ok?
        && ValidateSpaceSetting(space, Reservation(newId, startTime, endTime)).Pass?
        && forall k | 0 <= k < |store| :: !store[k].HasConflictWith(Reservation(newId, startTime, endTime)))
    ensures (r.Err? && CreateReservation(newId, startTime, endTime, now).Ok?
      && ValidateSpaceSetting(space, Reservation(newId, startTime, endTime)).Pass?) ==>
      r.error == ReservationAlreadyExists
  {
    match CreateReservation(newId, startTime, endTime, now)
    case Err(e) => Err(e)
    case Ok(reservation) =>
      var strategy := ExcludeReservationCreateStrategy;
      var outcome := ValidateAvailability(space, reservation, OnDate(store, reservation.Date()), strategy);
      var stored := if outcome.Fail? then Err(outcome.error) else Ok(store + [reservation]);
      if AllWellFormed(store) then OnDateFindsEveryConflict(store, reservation, strategy); stored
      else stored
  }

  /** `reservations` with every entry whose id is `id` replaced by `replacement`. */
  function ReplaceById(reservations: seq<Reservation>, id: nat, replacement: Reservation): seq<Reservation>
  {
    seq(|reservations|, k requires 0 <= k < |reservations| =>
      if reservations[k].id == id then replacement else reservations[k])
  }

  /**
   * Updating `reservation` to a new interval: build the new value (temporal
   * checks), validate it against its date's reservations excluding the one
   * being updated, then overwrite the stored entry. Nothing changes when any
   * check fails.
   */
  function UpdateReservation(
    space: Space,
    store: seq<Reservation>,
    reservation: Reservation,
    startTime: DateTime,
    endTime: DateTime,
    now: DateTime): (r: Result<seq<Reservation>, ReservationError>)
    ensures CreateReservation(reservation.id, startTime, endTime, now).Err? ==>
      r == Err(CreateReservation(reservation.id, startTime, endTime, now).error)
    ensures (CreateReservation(reservation.id, startTime, endTime, now).Ok?
      && ValidateSpaceSetting(space, Reservation(reservation.id, startTime, endTime)).Fail?) ==>
      r == Err(ValidateSpaceSetting(space, Reservation(reservation.id, startTime, endTime)).error)
    ensures r.Ok? ==>
      && |r.value| == |store|
      && forall k | 0 <= k < |store| ::
        r.value[k] == (if store[k].id == reservation.id then Reservation(reservation.id, startTime, endTime) else store[k])
    ensures AllWellFormed(store) ==>
      (r.Ok? <==>
        && CreateReservation(reservation.id, startTime, endTime, now).Ok?
        && ValidateSpaceSetting(space, Reservation(reservation.id, startTime, endTime)).Pass?
        && forall k | 0 <= k < |store| ::
          store[k].id != reservation.id ==> !store[k].HasConflictWith(Reservation(reservation.id, startTime, endTime)))
    ensures (r.Err? && CreateReservation(reservation.id, startTime, endTime, now).Ok?
      && ValidateSpaceSetting(space, Reservation(reservation.id, startTime, endTime)).Pass?) ==>
      r.error == ReservationAlreadyExists
  {
    match CreateReservation(reservation.id, startTime, endTime, now)
    case Err(e) => Err(e)
    case Ok(updated) =>
      var strategy := ExcludeReservationUpdateStrategy(reservation);
      var outcome := ValidateAvailability(space, updated, OnDate(store, updated.Date()), strategy);
      var stored := if outcome.Fail? then Err(outcome.error) else Ok(ReplaceById(store, reservation.id, updated));
      if AllWellFormed(store) then OnDateFindsEveryConflict(store, updated, strategy); stored
      else stored
  }

  /**
   * Deleting `reservation`: a manager skips the lifecycle guard; anyone else
   * may delete only a reservation that is neither in use nor expired.
   */
  function DeleteReservation(
    store: seq<Reservation>,
    reservation: Reservation,
    now: DateTime,
    isManager: bool): (r: Result<seq<Reservation>, ReservationError>)
    ensures isManager ==> r == Ok(Without(store, reservation.id))
    ensures !isManager && reservation.IsInUse(now) ==> r == Err(DeleteReservationInUse)
    ensures !isManager && !reservation.IsInUse(now) && reservation.IsExpired(now) ==>
      r == Err(DeleteExpiredReservation)
    ensures reservation.IsWellFormed() ==> (r.Ok? <==> isManager || now.IsBefore(reservation.startTime))
    ensures r.Ok? ==> forall x :: x in r.value <==> x in store && x.id != reservation.id
  {
    var guard := if isManager then Pass else ValidateDeletability(reservation, now);
    if guard.Fail? then Err(guard.error)
    else Ok(Without(store, reservation.id))
  }
}

=== FILE: scenarios.dfy ===
/**
 * The service test-suite's expectations, restated over the model on a fixed
 * date. The "be" space carries one setting, 10:00-22:00 every day, in units of
 * 10 minutes, lasting 60 to 120 minutes. All requests fall on day `Day`;
 * "now" is two days earlier.
 */
module Scenarios {
  import opened Time
  import opened TimeSlots
  import opened Wrappers
  import opened Errors
  import opened Settings
  import opened Reservations
  import opened ReservationService

  const Day: int := 100
  const Now: DateTime := DateTime(Day - 2, 9 * 60)
  const AllDays: set<DayOfWeek> := {Monday, Tuesday, Wednesday, Thursday, Friday, Saturday, Sunday}

  const BeSetting: Setting := Setting(TimeSlot(10 * 60, 22 * 60), 10, 60, 120, AllDays, 0)
  const Be: Space := Space(1, true, [BeSetting])

  /** A time on day `Day`. */
  function At(hour: int, minute: int): (t: DateTime)
    requires 0 <= hour * 60 + minute < MinutesPerDay
    ensures t.date == Day && t.Instant() == Day * MinutesPerDay + hour * 60 + minute
  {
    DateTime(Day, hour * 60 + minute)
  }

  /** Saving `start`-`end` on an empty "be" space. */
  function Save(space: Space, start: DateTime, end: DateTime): Result<seq<Reservation>, ReservationError>
  {
    SaveReservation(space, [], 7, start, end, Now)
  }

  /** Updating the 11:00-12:00 reservation of an otherwise empty space. */
  function Update(space: Space, start: DateTime, end: DateTime): Result<seq<Reservation>, ReservationError>
  {
    var current := Reservation(3, At(11, 0), At(12, 0));
    UpdateReservation(space, [current], current, start, end, Now)
  }

  lemma TemporalErrorsComeFirst()
    ensures Save(Be, At(14, 0), At(13, 0)) == Err(ImpossibleStartEndTime)
    ensures Save(Be, At(10, 0), At(10, 0)) == Err(ImpossibleStartEndTime)
    ensures Save(Be, At(10, 0), DateTime(Day + 1, 10 * 60)) == Err(NonMatchingStartEndDate)
    ensures Save(Be, DateTime(Day - 5, 10 * 60), DateTime(Day - 5, 11 * 60)) == Err(PastReservationTime)
    ensures Update(Be, At(12, 0), At(11, 0)) == Err(ImpossibleStartEndTime)
    ensures Update(Be, At(12, 0), At(12, 0)) == Err(ImpossibleStartEndTime)
    ensures Update(Be, At(10, 0), DateTime(Day + 1, 10 * 60)) == Err(NonMatchingStartEndDate)
    ensures Update(Be, DateTime(Day - 5, 10 * 60), DateTime(Day - 5, 11 * 60)) == Err(PastReservationTime)
  {
  }

  /** A window from three hours before a 23:00 "now" to three hours after it is in the past, although it spans two dates. */
  lemma PastWindowAcrossMidnightIsPast()
    ensures CreateReservation(7, DateTime(Day, 20 * 60), DateTime(Day + 1, 2 * 60), DateTime(Day, 23 * 60))
      == Err(PastReservationTime)
  {
  }

  /** A slot outside the 10:00-22:00 window, even one touching its edge, has no setting. */
  lemma EdgeTouchingSlotHasNoSetting()
    ensures Save(Be, At(6, 0), At(8, 0)) == Err(NoSettingAvailable)
    ensures Save(Be, At(8, 0), At(10, 0)) == Err(NoSettingAvailable)
    ensures Save(Be, At(22, 0), At(23, 0)) == Err(NoSettingAvailable)
    ensures Update(Be, At(6, 0), At(8, 0)) == Err(NoSettingAvailable)
    ensures Update(Be, At(8, 0), At(10, 0)) == Err(NoSettingAvailable)
    ensures Update(Be, At(22, 0), At(23, 0)) == Err(NoSettingAvailable)
  {
  }

  /** A setting enabled only on the following weekday does not apply. */
  lemma DisabledWeekdayHasNoSetting()
    ensures var setting := Setting(TimeSlot(0, 18 * 60), 10, 10, 120, {DayOfWeekOf(Day + 1)}, 0);
      && Save(Space(3, true, [setting]), At(11, 0), At(12, 0)) == Err(NoSettingAvailable)
      && Update(Space(3, true, [setting]), At(11, 0), At(12, 0)) == Err(NoSettingAvailable)
  {
  }

  /** With settings 08:00-10:00 and 10:00-22:00, slots across both are refused despite distinct priorities. */
  lemma SlotAcrossTwoSettingsIsRefused(startHour: int)
    requires startHour == 7 || startHour == 9
    ensures var early := Setting(TimeSlot(8 * 60, 10 * 60), 10, 10, 60, AllDays, 1);
      && Save(Space(1, true, [BeSetting, early]), At(startHour, 0), At(11, 0)) == Err(MultipleSettings)
      && Update(Space(1, true, [BeSetting, early]), At(startHour, 0), At(11, 0)) == Err(MultipleSettings)
  {
    var early := Setting(TimeSlot(8 * 60, 10 * 60), 10, 10, 60, AllDays, 1);
    var settings := [BeSetting, early];
    var slot := TimeSlot(startHour * 60, 11 * 60);
    assert settings[0].IsRelevantTo(slot, DayOfWeekOf(Day)) && settings[1].IsRelevantTo(slot, DayOfWeekOf(Day));
  }

  /** Exactly one setting is relevant, but the slot sticks out of its window. */
  lemma SlotNotWithinSettingIsRefused(startHour: int, endHour: int)
    requires (startHour, endHour) in {(9, 11), (21, 23)}
    ensures Save(Be, At(startHour, 0), At(endHour, 0)) == Err(InvalidStartEndTime)
    ensures Update(Be, At(startHour, 0), At(endHour, 0)) == Err(InvalidStartEndTime)
  {
    assert Governs(Be.spaceSettings, 0, TimeSlot(startHour * 60, endHour * 60), DayOfWeekOf(Day));
  }

  /** Start or end offsets from 10:00 that are not multiples of the 10-minute unit. */
  lemma MisalignedSlotIsRefused(startOffset: int, endOffset: int)
    requires (startOffset, endOffset) in {(5, 60), (10, 55), (5, 65), (20, 85)}
    ensures Save(Be, At(10, startOffset), At(10, endOffset)) == Err(InvalidTimeUnit)
    ensures Update(Be, At(10, startOffset), At(10, endOffset)) == Err(InvalidTimeUnit)
  {
    assert Governs(Be.spaceSettings, 0, TimeSlot(600 + startOffset, 600 + endOffset), DayOfWeekOf(Day));
  }

  lemma TooShortSlotIsRefused()
    ensures Save(Be, At(10, 0), At(10, 50)) == Err(InvalidMinimumDurationTime)
  {
    assert Governs(Be.spaceSettings, 0, TimeSlot(600, 650), DayOfWeekOf(Day));
  }

  lemma TooLongSlotIsRefused()
    ensures Save(Be, At(10, 0), At(12, 10)) == Err(InvalidMaximumDurationTime)
  {
    assert Governs(Be.spaceSettings, 0, TimeSlot(600, 730), DayOfWeekOf(Day));
  }

  /** The disabled-space check runs only after the setting accepts the slot. */
  lemma DisabledSpaceIsRefusedLast()
    ensures var setting := Setting(TimeSlot(0, 18 * 60), 10, 10, 120, AllDays, 0);
      && Save(Space(3, false, [setting]), At(11, 0), At(12, 0)) == Err(InvalidReservationEnable)
      && Save(Space(3, false, [setting]), At(11, 5), At(12, 0)) == Err(InvalidTimeUnit)
  {
    var setting := Setting(TimeSlot(0, 18 * 60), 10, 10, 120, AllDays, 0);
    assert Governs([setting], 0, TimeSlot(660, 720), DayOfWeekOf(Day));
    assert Governs([setting], 0, TimeSlot(665, 720), DayOfWeekOf(Day));
  }

  /** The request the service tests save by default, 11:00-12:00 two days ahead, is stored on an empty space. */
  lemma AcceptedReservationIsStored()
    ensures Save(Be, At(11, 0), At(12, 0)) == Ok([Reservation(7, At(11, 0), At(12, 0))])
  {
    var r := Reservation(7, At(11, 0), At(12, 0));
    assert CreateReservation(7, At(11, 0), At(12, 0), Now) == Ok(r);
    assert Governs(Be.spaceSettings, 0, r.Slot(), r.Weekday());
    assert BeSetting.Accepts(r.Slot());
    assert [] + [r] == [r];
  }

  /** A reservation enclosing the request conflicts; back-to-back ones do not. */
  lemma ConflictsOnCreate()
    ensures SaveReservation(Be, [Reservation(3, At(10, 0), At(12, 0))], 7, At(11, 0), At(12, 0), Now)
      == Err(ReservationAlreadyExists)
    ensures SaveReservation(Be, [Reservation(3, At(11, 0), At(13, 0))], 7, At(11, 0), At(12, 0), Now)
      == Err(ReservationAlreadyExists)
    ensures SaveReservation(Be, [Reservation(3, At(10, 0), At(11, 0)), Reservation(4, At(12, 0), At(13, 0))],
                            7, At(11, 0), At(12, 0), Now).Ok?
  {
    assert Reservation(3, At(10, 0), At(12, 0)).HasConflictWith(Reservation(7, At(11, 0), At(12, 0)));
    assert Reservation(3, At(11, 0), At(13, 0)).HasConflictWith(Reservation(7, At(11, 0), At(12, 0)));
  }

  /** Updating compares against every other reservation of the day: 13:30-14:30 overlaps the end of 13:00-14:00. */
  lemma UpdateOverlappingLaterPartIsRefused()
    ensures var am, pm, current := Reservation(1, At(10, 0), At(11, 0)), Reservation(2, At(13, 0), At(14, 0)),
                                   Reservation(3, At(11, 0), At(12, 0));
      UpdateReservation(Be, [am, pm, current], current, At(13, 30), At(14, 30), Now) == Err(ReservationAlreadyExists)
  {
  }

  /** 12:30-13:30 overlaps the start of 13:00-14:00 and is refused too. */
  lemma UpdateOverlappingEarlierPartIsRefused()
    ensures var am, pm, current := Reservation(1, At(10, 0), At(11, 0)), Reservation(2, At(13, 0), At(14, 0)),
                                   Reservation(3, At(11, 0), At(12, 0));
      UpdateReservation(Be, [am, pm, current], current, At(13, -30), At(14, -30), Now) == Err(ReservationAlreadyExists)
  {
  }

  /** Moving 11:00-12:00 to the adjacent 10:00-11:00 is accepted and overwrites the entry. */
  lemma UpdateToAdjacentSlotIsAccepted()
    ensures var current := Reservation(3, At(11, 0), At(12, 0));
      UpdateReservation(Be, [current], current, At(10, 0), At(11, 0), Now)
      == Ok([Reservation(3, At(10, 0), At(11, 0))])
  {
    var current := Reservation(3, At(11, 0), At(12, 0));
    var updated := Reservation(3, At(10, 0), At(11, 0));
    assert CreateReservation(3, At(10, 0), At(11, 0), Now) == Ok(updated);
    assert Governs(Be.spaceSettings, 0, updated.Slot(), updated.Weekday());
    assert ReplaceById([current], 3, updated) == [updated];
  }

  /** The reservation being updated is excluded: overlapping its own prior interval is accepted. */
  lemma UpdateOverlappingItselfIsAccepted()
    ensures var current := Reservation(3, At(11, 0), At(12, 0));
      UpdateReservation(Be, [current], current, At(11, 30), At(12, 30), Now)
      == Ok([Reservation(3, At(11, 30), At(12, 30))])
  {
    var current := Reservation(3, At(11, 0), At(12, 0));
    var updated := Reservation(3, At(11, 30), At(12, 30));
    assert CreateReservation(3, At(11, 30), At(12, 30), Now) == Ok(updated);
    assert Governs(Be.spaceSettings, 0, updated.Slot(), updated.Weekday());
    assert ReplaceById([current], 3, updated) == [updated];
  }

  lemma DeletionGuard()
    ensures var expired := Reservation(3, DateTime(Day - 5, 11 * 60), DateTime(Day - 5, 12 * 60));
      DeleteReservation([expired], expired, Now, false) == Err(DeleteExpiredReservation)
    ensures var inUse := Reservation(3, DateTime(Day - 2, 8 * 60), DateTime(Day - 2, 10 * 60));
      DeleteReservation([inUse], inUse, Now, false) == Err(DeleteReservationInUse)
    ensures var inUse := Reservation(3, DateTime(Day - 2, 8 * 60), DateTime(Day - 2, 10 * 60));
      DeleteReservation([inUse], inUse, Now, true) == Ok([])
    ensures var upcoming := Reservation(3, At(11, 0), At(12, 0));
      DeleteReservation([upcoming], upcoming, Now, false) == Ok([])
  {
  }
}

=== FILE: setting.dfy ===
/**
 * A space's recurring availability rules ("settings") and the resolution of
 * which of them governs a requested slot on a given weekday.
 */
module Settings {
  import opened Time
  import opened TimeSlots

  /** A duration in minutes that the source's time-unit value object keeps positive. */
  type PositiveMinutes = m: int | m > 0 witness 1

  /** A setting's window: the source only builds settings whose start precedes their end. */
  type Window = s: TimeSlot | s.IsValid() witness TimeSlot(0, 1)

  /**
   * During the weekdays in `enabledDayOfWeek`, inside `settingTimeSlot`, a
   * reservation must start and end on multiples of `reservationTimeUnit`
   * (counted from the window's start) and last between the minimum and the
   * maximum duration.
   */
  datatype Setting = Setting(
    settingTimeSlot: Window,
    reservationTimeUnit: PositiveMinutes,
    reservationMinimumTimeUnit: PositiveMinutes,
    reservationMaximumTimeUnit: PositiveMinutes,
    enabledDayOfWeek: set<DayOfWeek>,
    priorityOrder: int)
  {
    /** Relevance: enabled on the weekday and strictly overlapping the slot. */
    predicate IsRelevantTo(slot: TimeSlot, day: DayOfWeek)
    {
      day in enabledDayOfWeek && settingTimeSlot.Overlaps(slot)
    }

    predicate CannotAcceptDueToAvailableTime(slot: TimeSlot)
    {
      !settingTimeSlot.Contains(slot)
    }

    predicate CannotAcceptDueToTimeUnit(slot: TimeSlot)
    {
      (slot.startTime - settingTimeSlot.startTime) % reservationTimeUnit != 0
      || (slot.endTime - settingTimeSlot.startTime) % reservationTimeUnit != 0
    }

    predicate CannotAcceptDueToMinimumTimeUnit(slot: TimeSlot)
    {
      slot.Duration() < reservationMinimumTimeUnit
    }

    predicate CannotAcceptDueToMaximumTimeUnit(slot: TimeSlot)
    {
      slot.Duration() > reservationMaximumTimeUnit
    }

    /** The setting admits the slot: every one of its own checks passes. */
    predicate Accepts(slot: TimeSlot)
    {
      && !CannotAcceptDueToAvailableTime(slot)
      && !CannotAcceptDueToTimeUnit(slot)
      && !CannotAcceptDueToMinimumTimeUnit(slot)
      && !CannotAcceptDueToMaximumTimeUnit(slot)
    }
  }

  /**
   * The settings relevant to the slot on the weekday, in their original order.
   * Priority plays no part: two relevant settings are reported as two.
   */
  function RelevantSettings(settings: seq<Setting>, slot: TimeSlot, day: DayOfWeek): (r: seq<Setting>)
    ensures |r| <= |settings|
    ensures forall s :: s in r ==> s in settings && s.IsRelevantTo(slot, day)
    ensures forall i | 0 <= i < |settings| :: settings[i].IsRelevantTo(slot, day) ==> settings[i] in r
    ensures |r| == 0 <==> forall i | 0 <= i < |settings| :: !settings[i].IsRelevantTo(slot, day)
    ensures |r| >= 2 <==>
      exists i, j | 0 <= i < j < |settings| ::
        settings[i].IsRelevantTo(slot, day) && settings[j].IsRelevantTo(slot, day)
  {
    if |settings| == 0 then []
    else
      var rest := RelevantSettings(settings[1..], slot, day);
      assert forall i | 1 <= i < |settings| :: settings[i] == settings[1..][i - 1];
      if settings[0].IsRelevantTo(slot, day) then [settings[0]] + rest
      else rest
  }

  /** The setting at index `i` is relevant, and no other setting is. */
  predicate Governs(settings: seq<Setting>, i: int, slot: TimeSlot, day: DayOfWeek)
  {
    && 0 <= i < |settings|
    && settings[i].IsRelevantTo(slot, day)
    && forall j | 0 <= j < |settings| && j != i :: !settings[j].IsRelevantTo(slot, day)
  }

  /**
   * Exactly one relevant setting exactly when some index governs; the relevant
   * list is then that one setting.
   */
  lemma SingleRelevantSetting(settings: seq<Setting>, slot: TimeSlot, day: DayOfWeek)
    ensures |RelevantSettings(settings, slot, day)| == 1 <==> exists i :: Governs(settings, i, slot, day)
    ensures forall i :: Governs(settings, i, slot, day) ==> RelevantSettings(settings, slot, day) == [settings[i]]
  {
    var r := RelevantSettings(settings, slot, day);
    if |r| == 1 {
      assert r[0] in r;
      var i :| 0 <= i < |settings| && settings[i] == r[0];
      forall j | 0 <= j < |settings| && j != i
        ensures !settings[j].IsRelevantTo(slot, day)
      {
      }
      assert Governs(settings, i, slot, day);
    }
    forall i | Governs(settings, i, slot, day)
      ensures r == [settings[i]]
    {
      assert settings[i] in r;
      assert !(|r| >= 2);
    }
  }
}

=== FILE: time.dfy ===
/**
 * Calendar primitives. A local date is a day number, a local time is a minute
 * of the day, and a local date-time is the pair of the two. Day number 0 is a
 * Monday, so the weekday of a date is its day number modulo 7.
 */
module Time {

  const MinutesPerDay: int := 1440

  /** A time of day at minute precision, 00:00 through 23:59. */
  type MinuteOfDay = m: int | 0 <= m < 1440

  datatype DayOfWeek = Monday | Tuesday | Wednesday | Thursday | Friday | Saturday | Sunday

  function DayOfWeekOf(date: int): DayOfWeek
  {
    match date % 7
    case 0 => Monday
    case 1 => Tuesday
    case 2 => Wednesday
    case 3 => Thursday
    case 4 => Friday
    case 5 => Saturday
    case _ => Sunday
  }

  /** A local date-time: a date and a minute within it. */
  datatype DateTime = DateTime(date: int, time: MinuteOfDay)
  {
    /** Minutes elapsed since 00:00 of day 0; orders date-times chronologically. */
    function Instant(): int
    {
      date * MinutesPerDay + time
    }

    predicate IsBefore(other: DateTime)
    {
      Instant() < other.Instant()
    }
  }

  /** Every instant of a date lies inside that date's block of minutes. */
  lemma InstantWithinDate(t: DateTime)
    ensures t.date * MinutesPerDay <= t.Instant() < (t.date + 1) * MinutesPerDay
  {
  }
}

=== FILE: time_slot.dfy ===
/** Time-of-day intervals and the two relations the setting checks use on them. */
module TimeSlots {
  import opened Time

  /** The interval [startTime, endTime) of a day. */
  datatype TimeSlot = TimeSlot(startTime: MinuteOfDay, endTime: MinuteOfDay)
  {
    predicate IsValid()
    {
      startTime < endTime
    }

    function Duration(): int
    {
      endTime - startTime
    }

    /** Inclusive containment: `other` may touch either edge of this slot. */
    predicate Contains(other: TimeSlot)
    {
      startTime <= other.startTime && other.endTime <= endTime
    }

    /** Half-open overlap: slots that only share an endpoint do not overlap. */
    predicate Overlaps(other: TimeSlot)
    {
      startTime < other.endTime && other.startTime < endTime
    }
  }

  lemma OverlapsIsSymmetric(a: TimeSlot, b: TimeSlot)
    ensures a.Overlaps(b) <==> b.Overlaps(a)
  {
  }

  /** A slot ending exactly where another starts does not overlap it. */
  lemma TouchingSlotsDoNotOverlap(a: TimeSlot, b: TimeSlot)
    requires a.endTime <= b.startTime
    ensures !a.Overlaps(b) && !b.Overlaps(a)
  {
  }

  lemma ContainsIsReflexive(a: TimeSlot)
    ensures a.Contains(a)
  {
  }

  /** Containment of a non-empty slot is the stronger relation: it implies overlap. */
  lemma ContainedSlotOverlaps(outer: TimeSlot, inner: TimeSlot)
    requires inner.IsValid()
    requires outer.Contains(inner)
    ensures outer.Overlaps(inner)
  {
  }
}

=== FILE: wrappers.dfy ===
/** Failure-carrying values used in place of the source's nulls and exceptions. */
module Wrappers {

  /** A value that may be absent (a Java reference that may be null). */
  datatype Option<+T> = None | Some(value: T)

  /** Either a computed value or the error that stopped the computation. */
  datatype Result<+T, +E> = Ok(value: T) | Err(error: E)

  /** The outcome of a validation step that computes nothing: it passes or fails with an error. */
  datatype Outcome<+E> = Pass | Fail(error: E)
}
